=== FILE: README.md ===
# driverkit options, build record and local kernel files — a Dafny model

driverkit builds Falco's kernel module and eBPF probe for a given kernel
release. This model covers the part of the command line that comes before
any build runs:

- the root options (`RootOptions`, `OutputOptions`, `RepoOptions`), their
  defaults and their validation: the per-field tags, the struct-level rule
  and the final kernel-support check;
- the translation of validated options into a `Build` record (`toBuild`);
- the pre-run hook of the root command. It merges viper's answers (which
  rank a changed flag over the environment over the config file) into the
  flags, checks the log level, records the online
  mode, normalises Ubuntu flavours to `ubuntu` and validates the options of
  every command except the root and help/completion commands;
- the `Build` record, its kernel release, its GitHub archive URL, its
  render-context projection (`ToConfig`) and the process-wide online-mode flag;
- the lookup of kernel files already on the local disk (`GetLocalKernelFiles`);
- the three path validators `isFilePath`, `isExistFilePath` and
  `isExistDirPath`.

Modules, one per source file or component:

- `Wrappers` holds `Option` and `Result`.
- `FileSystem` holds the abstract outcome of `os.Stat` and abstract
  `filepath.Join`/`filepath.Dir`.
- `KernelReleases` holds the parsed release and its uninterpreted
  parser/support matrix.
- `Validate` is validate/isfilepath.go.
- `Builder` is pkg/driverbuilder/builder/build.go.
- `BuildersLocal` is pkg/driverbuilder/builder/builders_local.go.
- `Options` is cmd/root_options.go.
- `Root` is cmd/root.go.

Things the core calls but does not define become parameters:

- `os.Stat` is a function `string -> StatResult`. Its outcomes are
  "not exist", "other error" and "exists, directory or not".
- `os.Executable` is a `Result`.
- `filepath.Join` and `filepath.Dir` are functions.
- `kernelrelease.FromString`, `SupportsModule` and `SupportsProbe` are
  functions in `Support`.
- The validator library's built-in tags `base64` and `ascii`, and the custom
  `architecture`, `target`, `imagename` and `semvertolerant` tags, are
  predicates in `TagLibrary`. The tags `filepath`, `isExistFilePath` and
  `isExistDirPath` are the functions of validate/isfilepath.go.
- viper's lookups are two maps.
- A pflag flag's `Set` is a function from the old value and a string to the
  new value.
- The logger's current level, and whether a level name parses, are inputs.
- The package-level `onlineMode` variable is an explicit state value that
  `SetOnlineMode` returns.

How go-playground/validator runs is modelled as follows:

- A field's tags run in the order written.
- The first failing tag is the field's only error.
- `omitempty` ends the walk on an empty value *at its position*. So
  `filepath`, which comes before `omitempty` on the outputs, also runs on the
  empty string. An empty output passes it only when stat reports the empty
  path as not existing.
- Field errors come in declaration order. The struct-level errors follow, and
  they are computed even when fields failed.

Three behaviours of the code are easy to misread, and each is shown by a
lemma or stated in a contract:

- The default repository `docker.io/falcosecurity/driverkit` is appended to
  the builder repositories every time, even when the user already listed it
  (cmd/root_options.go:147). Lemma `ToBuildDoesNotDeduplicateDefaultRepo`
  shows that it then occurs twice.
- `Validate` only checks that the release supports a module or a probe. It
  does not check that it supports a *requested* output
  (cmd/root_options.go:70-76). Lemma `ValidatedOptionsMayRequestNothing`
  shows that options passing validation with only an unsupported module
  requested end up requesting nothing, and `RequestNothingReachable`
  exhibits such options: a module-only request on a release that supports
  the probe but not the module.
- `ModuleFilePath` carries `isExistFilePath` without `omitempty`
  (cmd/root_options.go:28). The empty path is therefore stat'ed and, being
  missing, fails validation.

## Model

| member | source | states |
|---|---|---|
| `Validate.IsFilePath` | validate/isfilepath.go:11-28 | the `filepath` tag of the two outputs: a path that does not exist is acceptable; a stat failure of any other kind is rejected; an existing entry is acceptable exactly when it is not a directory; non-string fields are outside the contract (the source panics) |
| `Validate.IsExistFilePath` | validate/isfilepath.go:30-47 | a missing path is rejected; a stat failure other than "not exist" is accepted; an existing entry is accepted exactly when it is not a directory |
| `Validate.IsExistDirPath` | validate/isfilepath.go:49-66 | a missing path is rejected; a stat failure other than "not exist" is accepted; an existing entry is accepted exactly when it is a directory |
| `Validate.ExistFileAndDirComplementary` | validate/isfilepath.go:30-66 | on an existing entry exactly one of "existing file" and "existing directory" holds; both hold on a stat error, neither on a missing path |
| `Validate.FilePathAndExistFilePathDifferOnlyOnStatFailure` | validate/isfilepath.go:11-47 | `isFilePath` and `isExistFilePath` agree exactly on the paths that exist |
| `KernelReleases.WithArchitecture` | cmd/root_options.go:71-72 | retargeting a parsed release replaces its architecture and keeps version and extraversion |
| `Builder.SetOnlineMode` | pkg/driverbuilder/builder/build.go:31-37 | after setting the mode, `IsOnlineMode` reports the mode set |
| `Builder.OnlineModeLastWriteWins` | pkg/driverbuilder/builder/build.go:31-37 | of two successive settings only the second is observable, whatever the earlier state |
| `Builder.KernelReleaseFromBuildConfig` | pkg/driverbuilder/builder/build.go:39-43 | the build's release is the parse of its release string with the architecture overridden by the build's own architecture |
| `Builder.KernelReleaseDependsOnReleaseAndArchitecture` | pkg/driverbuilder/builder/build.go:39-43 | builds that agree on release string and architecture have the same kernel release, whatever their other fields |
| `Builder.IsOnlineMode` | pkg/driverbuilder/builder/build.go:35-37 | reads the online-mode state; `Builder.SetOnlineMode` states that it answers the mode last set |
| `Builder.ToGithubRepoArchive` | pkg/driverbuilder/builder/build.go:45-47 | the `https://github.com/<org>/<name>` archive URL; `Builder.RepoArchiveRoundTrip` states what it determines |
| `Builder.ToConfig` | pkg/driverbuilder/builder/build.go:49-56 | the render context of a build; `Builder.ToConfigSpec` states its fields |
| `Builder.RepoArchiveRoundTrip` | pkg/driverbuilder/builder/build.go:45-47 | the archive URL starts with `https://github.com/`, and when the organisation holds no `/` the organisation and name can be read back from it |
| `Builder.ToConfigSpec` | pkg/driverbuilder/builder/build.go:49-56 | the render context carries the driver name, the device name, a GitHub URL leading back to the repository, and the build itself, so that equal contexts come from equal builds |
| `BuildersLocal.GetDriverkitRootDir` | pkg/driverbuilder/builder/builders_local.go:17-23 | an `os.Executable` failure is passed on; otherwise the join of the executable's directory and `../..` |
| `BuildersLocal.GetLocalKernelFileDir` | pkg/driverbuilder/builder/builders_local.go:26-32 | a root-directory failure is passed on; otherwise `build/kernel` joined under the root; `BuildersLocal.ResolveLocalKernelDir` states both cases |
| `BuildersLocal.ResolveLocalKernelDir` | pkg/driverbuilder/builder/builders_local.go:15-42 | a given directory is used as is; for the empty string the directory is `build/kernel` under two levels above the executable's directory, and a failing executable lookup is the error returned |
| `BuildersLocal.ExistingPaths` | pkg/driverbuilder/builder/builders_local.go:47-52 | there are never more candidate paths than expected file names |
| `BuildersLocal.ExistingPathsInNameOrder` | pkg/driverbuilder/builder/builders_local.go:47-52 | the candidates are the names' paths with some left out, in the order of the names |
| `BuildersLocal.ExistingPathsMembers` | pkg/driverbuilder/builder/builders_local.go:47-52 | a path is a candidate exactly when it is `<dir>/<osType>/<name>` for an expected name and stat reports anything but "not exist" for it, other stat errors included |
| `BuildersLocal.DedupFromMembers` | pkg/driverbuilder/builder/builders_local.go:45-57 | the de-duplicated list holds exactly the elements not seen before and is no longer than its input |
| `BuildersLocal.DedupFromNoDuplicates` | pkg/driverbuilder/builder/builders_local.go:45-57 | the `keys` map guarantees no path is listed twice |
| `BuildersLocal.DedupFromFirstSeenOrder` | pkg/driverbuilder/builder/builders_local.go:45-57 | paths are listed in the order of their first appearance among the candidates |
| `BuildersLocal.DedupFromSubsequence` | pkg/driverbuilder/builder/builders_local.go:45-57 | de-duplication only leaves candidates out and never reorders them |
| `BuildersLocal.LocalKernelFilesSpec` | pkg/driverbuilder/builder/builders_local.go:34-64 | the lookup fails when the directory cannot be derived, and fails with "not found in dir" exactly when no candidate exists. Otherwise the paths are non-empty, unique, in first-appearance order, in the order of the names they come from, no more numerous than the names, and each one is an expected name's path that stat does not report missing |
| `BuildersLocal.CollectExisting` | pkg/driverbuilder/builder/builders_local.go:44-57 | the loop with its `keys` map computes the existing candidates, first occurrences only, in order |
| `BuildersLocal.GetLocalKernelFiles` | pkg/driverbuilder/builder/builders_local.go:34-64 | the imperative lookup returns what the reference definition prescribes, error cases included |
| `Options.NewRootOptions` | cmd/root_options.go:26-56 | fresh options carry the kernel version default `"1"`; every other string field, both lists, the repository and the outputs are empty |
| `Options.FirstFailure` | cmd/root_options.go:16-42 | the validator's walk of one field's tag list; `Options.FirstFailureSpec` states what it reports |
| `Options.FirstFailureSpec` | cmd/root_options.go:15-43 | a reported tag is the first failing rule of the field's list: every rule before it holds and no `omitempty` before it met an empty value; on a non-empty value no rule fails unreported; a list without `omitempty` passes exactly when every rule holds |
| `Options.FirstFailureOutputShape` | cmd/root_options.go:16-17 | the output tags report `required_without`, then `filepath` even on an empty value, then the suffix only on a non-empty value |
| `Options.OutputErrorsEmptyIff` | cmd/root_options.go:14-18 | the outputs pass their tags exactly when at least one is requested, each may be a file (missing, or an existing non-directory), and each given one carries its `.ko`/`.o` suffix |
| `Options.FieldCheck` | cmd/root_options.go:59-61 | a field contributes at most one error, exactly when its walk finds a failure, naming that failure |
| `Options.FieldErrors` | cmd/root_options.go:59-61 | the field-level errors of `validate.V.Struct`, in declaration order; `Options.FieldErrorsEmptyIff` states when there are none |
| `Options.CollectErrorsEmptyIff` | cmd/root_options.go:59-61 | the validator reports no field error exactly when every field walks its tags without failure |
| `Options.EveryFieldPassesIff` | cmd/root_options.go:15-43 | each field's tag walk passes exactly when the field rule stated directly for it holds |
| `Options.FieldErrorsEmptyIff` | cmd/root_options.go:15-43 | the tags reject exactly the options that break a field rule: the required, architecture, ascii, target, max and excludes rules, the existing module source file, the optional base64/imagename/semver fields, at least one output with the `.ko`/`.o` suffix, and an existing local kernel directory when given |
| `Options.StructLevelErrors` | cmd/root_options.go:163-185 | kernel config data is required for vanilla, minikube and flatcar; a kernel version for ubuntu; a builder image for redhat; each rule reports its own error independently, and there are no others |
| `Options.ValidateOptions` | cmd/root_options.go:58-77 | validator errors are returned as they are; without them a single error is returned exactly when the release, retargeted to the architecture, supports neither driver |
| `Options.ValidateAcceptsExactly` | cmd/root_options.go:58-77 | options pass validation exactly when every field rule and every cross-field rule holds and the release supports some driver |
| `Options.BuildFromOptions` | cmd/root_options.go:120-143 | the build never carries empty kernel config data |
| `Options.DropUnsupportedOutputs` | cmd/root_options.go:149-158 | only the two output paths change; each remaining output is supported; each path is either kept or cleared |
| `Options.DropUnsupportedOutputsExact` | cmd/root_options.go:149-158 | an output is kept exactly when the release supports it, and a second pass changes nothing |
| `Options.ToBuild` | cmd/root_options.go:119-161 | empty config data becomes the base64 "no-data" sentinel; the user's repositories keep their order with the default appended last; an output survives exactly when it is not requested or its driver is supported; every other field is copied |
| `Options.ToBuildDoesNotDeduplicateDefaultRepo` | cmd/root_options.go:145-147 | when the user already lists the default repository, the build lists it once more than the user did, so at least twice |
| `Options.ValidatedOptionsHaveSupportedRelease` | cmd/root_options.go:70-76 | validated options give a build whose kernel release supports some driver |
| `Options.ValidatedOptionsMayRequestNothing` | cmd/root_options.go:70-76 | options that pass validation while requesting only the module, on a release without module support, give a build that requests no output |
| `Options.RequestNothingReachable` | cmd/root_options.go:70-76 | such options exist: validation accepts a module-only request on a release that supports the probe but not the module, and the build requests neither driver |
| `Root.NormalizeTarget` | cmd/root.go:86-89 | every target starting with `ubuntu` becomes `ubuntu`; any other target is left alone |
| `Root.NormalizeTargetIdempotent` | cmd/root.go:86-89 | normalising twice is normalising once |
| `Root.JoinCommaRoundTrip` | cmd/root.go:50-53 | the comma-join `strings.Join(value, ",")` of a non-empty list of comma-free URLs is undone by splitting at every comma |
| `Root.Decide` | cmd/root.go:29-67 | config, timeout, dryrun and proxy are never merged. Kernel URLs from the command line win; otherwise configured URLs are set as their comma-join. Every other flag takes viper's answer for the key, else viper's answer for its nested `output.*` key, else keeps its own |
| `Root.MergeFlags` | cmd/root.go:40-69 | the merge visits every flag and adds none |
| `Root.MergeFlagsFrame` | cmd/root.go:40-69 | every flag ends up as its own `Decide` outcome applied to it. Skipped flags, flags the configuration is silent about, and command-line kernel URLs stay untouched. Other flags receive viper's answer for the key, else viper's answer for the nested `output.*` key, through the flag's own setter. Configured kernel URLs reach their flag as one comma-joined string |
| `Root.OptionsFromFlags` | cmd/root.go:152-171 | each of the fifteen option fields is the value of the flag registered for it, by flag name, with nested fields for `repo-*` and `output-*` |
| `Root.NormalizeTargetFlag` | cmd/root.go:86-89 | the hook's assignment to the target also rewrites the `target` flag, which is bound to it (cmd/root.go:158). The flag set is the same, every other flag is unchanged, and the `target` flag reads as the normalised target |
| `Root.MergedOptions` | cmd/root.go:86-89 | the options the command runs with have an already normalised target, which is `ubuntu` exactly when the merged `target` flag starts with `ubuntu` and is that flag otherwise; every other field is the one the merged flags give |
| `Root.AfterMerge` | cmd/root.go:71-102 | once the flags are merged, the hook exits on the log level exactly when a changed level does not parse. It succeeds exactly when the level is fine and the command is unguarded (root, help, completion) or its options validate. A successful run leaves the merged flags with the `target` flag normalised, the options those flags hold, and the online mode from the `onlinemode` flag. The validation exit happens exactly when the level is fine, the command is guarded and validation reports errors; the model carries the errors the source logs |
| `Root.PersistentValidate` | cmd/root.go:22-104 | the hook exits on config-flag errors exactly when they are present, before anything is merged. Otherwise its outcome is that of `Root.AfterMerge` on the flags as `Root.MergeFlags` leaves them. A successful run neither adds nor drops a flag |
| `Root.UbuntuFlavourValidatedAsUbuntu` | cmd/root.go:86-98 | an Ubuntu flavour without a kernel version is rejected under the `ubuntu` rule, because normalisation happens before validation |

## Left out

- `Root.JoinCommaRoundTrip`: the flag's own `Set` is uninterpreted, and pflag's CSV reading of the joined string is not modelled. The lemma proves only that `strings.Join(value, ",")` is undone by splitting at commas. Through the real flag the URLs are not always recovered: a configured `[""]` joins to `""`, which the flag reads as the empty list; a URL holding `"` makes `Set` fail, an error cmd/root.go:53 ignores, so the flag keeps its old value and no configured URL arrives; a CR or LF in a URL ends the CSV record.
- `CopyFileToContainer` (pkg/driverbuilder/builder/builders_local.go:66-114): Docker client calls and tar streaming, all I/O.
- `RootOptions.Log` (cmd/root_options.go:82-117): builds a log line only.
- The logger calls and the `logger.SetLevel` side effect of the pre-run hook. Only the log-level error exit is kept.
- `Root.PersistentValidate`: the source returns the same error, "exiting for validation errors", on all three exits (cmd/root.go:26, 76, 97) and only logs the validation errors. The model tells the three exits apart and carries, in `InvalidOptions`, the errors that the source logs.
- The warnings `toBuild` logs when it drops an unsupported output (cmd/root_options.go:153, 157). Only the dropping itself is modelled.
- `rootCommand.StripSensitive`: it rewrites help text and does not change option values.
- `NewRootCmd`, flag registration, `initConfig` and `Start` in cmd/root.go: cobra/viper wiring. Only the flag names that feed the options are kept, in `OptionsFromFlags`.
- The translation of validator errors into messages: errors are modelled as (field, tag) pairs.
- The built-in `base64` and `ascii` tags of go-playground/validator, and the custom `architecture`, `target`, `imagename` and `semvertolerant` validators, are uninterpreted predicates, because their code and registrations are not part of this model. The registration file is not part of this model either, so the mapping of the tag names `filepath`, `isExistFilePath` and `isExistDirPath` to `isFilePath`, `isExistFilePath` and `isExistDirPath` of validate/isfilepath.go is assumed.
- The parser and support matrix of the `kernelrelease` package are not part of this model: they are uninterpreted functions.
- The target identifier strings (`vanilla`, `minikube`, `flatcar`, `ubuntu`, `redhat`) come from builder files that are not part of this model. Their values are assumed.
- The `Images` field of `Build`: it is filled by the image-selection code, which is not part of this model, and nothing modelled reads it.
- `os.Stat`, `os.Executable`, `filepath.Join` and `filepath.Dir`: they are parameters, and path cleaning is not modelled.
- pflag's typed `Set` parsing and viper's key lookup, case folding and environment binding: `Set` is an uninterpreted function and viper's answers are two maps.
- `max=n` counts characters of the modelled string. The validator counts runes, which differs only on invalid UTF-8. Strings here are sequences of characters, so that case does not arise.
- Concurrency: the online-mode variable is an explicit state value, not a shared global.
- `Root.Decide`: viper's precedence is not modelled. Since cmd/root.go:173 binds every flag, viper answers a changed command-line flag first, then the environment, then the config file, then the flag's default; that ranking lives inside the abstract `Viper` maps.
- `Root.MergeFlags`: its own contract states only that the flag set is kept. `Root.MergeFlagsFrame` states that each flag gets its `Root.Decide` outcome, and spells out every case.

=== FILE: build.dfy ===
/**
 * The `Build` record every downstream component reads, its projection into
 * the script render context, and the process-wide online-mode flag, made an
 * explicit state value.
 */
module Builder {
  import opened Wrappers
  import opened KernelReleases
  import opened Strings

  /** Target identifiers the option rules refer to (`builder.TargetType*`). */
  const TargetVanilla := "vanilla"
  const TargetMinikube := "minikube"
  const TargetFlatcar := "flatcar"
  const TargetUbuntu := "ubuntu"
  const TargetRedhat := "redhat"

  /** The configuration of one build. `moduleFilePath` is the source archive
      of the module, `moduleOutputFilePath` and `probeFilePath` the requested
      outputs (empty when not requested). */
  datatype Build = Build(
    targetType: string,
    kernelConfigData: string,
    kernelRelease: string,
    kernelVersion: string,
    moduleFilePath: string,
    architecture: string,
    moduleOutputFilePath: string,
    probeFilePath: string,
    moduleDriverName: string,
    moduleDeviceName: string,
    builderImage: string,
    builderRepos: seq<string>,
    kernelUrls: seq<string>,
    gccVersion: string,
    repoOrg: string,
    repoName: string,
    localKernelDir: string)

  /** The render context of the build script. */
  datatype Config = Config(
    driverName: string,
    deviceName: string,
    downloadBaseURL: string,
    build: Build)

  /** The package-level `onlineMode` variable. */
  datatype OnlineState = OnlineState(online: bool)

  function SetOnlineMode(state: OnlineState, mode: bool): (next: OnlineState)
    ensures IsOnlineMode(next) == mode
  {
    OnlineState(mode)
  }

  function IsOnlineMode(state: OnlineState): bool
  {
    state.online
  }

  /** Only the last write is observable, whatever came before it. */
  lemma OnlineModeLastWriteWins(state: OnlineState, first: bool, second: bool)
    ensures IsOnlineMode(SetOnlineMode(SetOnlineMode(state, first), second)) == second
    ensures SetOnlineMode(SetOnlineMode(state, first), second) == SetOnlineMode(state, second)
  {
  }

  /** The build's kernel release: parsed from `kernelRelease`, with the
      architecture replaced by the build's own, whatever the string said. */
  function KernelReleaseFromBuildConfig(b: Build, k: Support): (kr: KernelRelease)
    ensures kr.architecture == b.architecture
    ensures var parsed := k.fromString(b.kernelRelease);
      kr.major == parsed.major && kr.minor == parsed.minor && kr.patch == parsed.patch
      && kr.extraversion == parsed.extraversion
  {
    ParseFor(k, b.kernelRelease, b.architecture)
  }

  /** Two builds that agree on release and architecture have the same kernel
      release, so changing any other field (such as clearing an output) does
      not change the support decision. */
  lemma KernelReleaseDependsOnReleaseAndArchitecture(b1: Build, b2: Build, k: Support)
    requires b1.kernelRelease == b2.kernelRelease && b1.architecture == b2.architecture
    ensures KernelReleaseFromBuildConfig(b1, k) == KernelReleaseFromBuildConfig(b2, k)
  {
  }

  const GithubPrefix := "https://github.com/"

  /** The base URL the source archive is downloaded from. */
  function ToGithubRepoArchive(b: Build): string
  {
    GithubPrefix + b.repoOrg + "/" + b.repoName
  }

  /** Reads an archive URL back into (organisation, repository name), splitting
      at the first `/` after the GitHub prefix. */
  function SplitRepoArchive(url: string): Option<(string, string)>
  {
    if |url| < |GithubPrefix| || url[..|GithubPrefix|] != GithubPrefix then None
    else
      var rest := url[|GithubPrefix|..];
      var i := IndexOf(rest, '/');
      if i == |rest| then None else Some((rest[..i], rest[i + 1..]))
  }

  /** The archive URL is the GitHub prefix, the organisation, `/`, the name;
      and whenever the organisation holds no `/` both parts can be read back. */
  lemma RepoArchiveRoundTrip(b: Build)
    ensures GithubPrefix <= ToGithubRepoArchive(b)
    ensures '/' !in b.repoOrg ==>
      SplitRepoArchive(ToGithubRepoArchive(b)) == Some((b.repoOrg, b.repoName))
  {
    var url := ToGithubRepoArchive(b);
    assert url[..|GithubPrefix|] == GithubPrefix;
    var rest := url[|GithubPrefix|..];
    assert rest == b.repoOrg + "/" + b.repoName;
    if '/' !in b.repoOrg {
      var i := IndexOf(rest, '/');
      assert rest[|b.repoOrg|] == '/';
      assert forall j :: 0 <= j < |b.repoOrg| ==> rest[j] == b.repoOrg[j];
      assert i == |b.repoOrg|;
      assert rest[..i] == b.repoOrg;
      assert rest[i + 1..] == b.repoName;
    }
  }

  /** The render context handed to script synthesis. */
  function ToConfig(b: Build): Config
  {
    Config(b.moduleDriverName, b.moduleDeviceName, ToGithubRepoArchive(b), b)
  }

  /** The render context carries the driver and device names, a download URL
      that leads back to the build's repository whenever the organisation
      holds no `/`, and the build itself, untouched; so it determines the
      build. */
  lemma ToConfigSpec(b1: Build, b2: Build)
    ensures var c := ToConfig(b1);
      && c.driverName == b1.moduleDriverName
      && c.deviceName == b1.moduleDeviceName
      && c.build == b1
      && GithubPrefix <= c.downloadBaseURL
      && ('/' !in b1.repoOrg ==> SplitRepoArchive(c.downloadBaseURL) == Some((b1.repoOrg, b1.repoName)))
    ensures ToConfig(b1) == ToConfig(b2) ==> b1 == b2
  {
    RepoArchiveRoundTrip(b1);
  }
}

=== FILE: builders_local.dfy ===
/**
 * Lookup of kernel files already present on the local disk, under
 * `<dir>/<osType>/<filename>`, where `<dir>` is either given or derived from
 * the location of the running executable.
 */
module BuildersLocal {
  import opened Wrappers
  import opened FileSystem

  const KernelFilePathUnderRoot := "build/kernel"

  /** Why no local kernel file list was produced. */
  datatype LocalError =
    | ExecutableError(reason: string)   // os.Executable failed
    | NotFound(dir: string)             // no expected file exists under dir

  /** `GetDriverkitRootDir`: two levels above the executable's directory. */
  function GetDriverkitRootDir(exe: Result<string, string>, p: Paths): Result<string, LocalError>
  {
    match exe
    case Err(e) => Err(ExecutableError(e))
    case Ok(path) => Ok(p.join([p.dir(path), "../.."]))
  }

  /** `GetLocalKernelFileDir`: `build/kernel` under the root directory. */
  function GetLocalKernelFileDir(exe: Result<string, string>, p: Paths): Result<string, LocalError>
  {
    match GetDriverkitRootDir(exe, p)
    case Err(e) => Err(e)
    case Ok(root) => Ok(p.join([root, KernelFilePathUnderRoot]))
  }

  /** The directory searched: the caller's, or the conventional one when the
      caller passes the empty string. */
  function ResolveLocalKernelDir(localKernelDir: string, exe: Result<string, string>, p: Paths)
    : (r: Result<string, LocalError>)
    ensures localKernelDir != "" ==> r == Ok(localKernelDir)
    ensures localKernelDir == "" && exe.Err? ==> r == Err(ExecutableError(exe.error))
    ensures localKernelDir == "" && exe.Ok? ==>
      r == Ok(p.join([p.join([p.dir(exe.value), "../.."]), "build/kernel"]))
  {
    if localKernelDir == "" then GetLocalKernelFileDir(exe, p) else Ok(localKernelDir)
  }

  /** The candidate path of one expected file. */
  function KernelFilePath(p: Paths, dir: string, osType: string, filename: string): string
  {
    p.join([dir, osType, filename])
  }

  /** The candidate path of every expected name, in the order of the names. */
  function Candidates(p: Paths, dir: string, osType: string, names: seq<string>): (c: seq<string>)
    ensures |c| == |names|
    ensures forall i :: 0 <= i < |names| ==> c[i] == KernelFilePath(p, dir, osType, names[i])
  {
    seq(|names|, i requires 0 <= i < |names| => KernelFilePath(p, dir, osType, names[i]))
  }

  /** `a` is `b` with some elements left out, the rest in their order. */
  predicate SubsequenceOf<T(==)>(a: seq<T>, b: seq<T>)
    decreases |b|
  {
    if a == [] then true
    else if b == [] then false
    else (a[0] == b[0] && SubsequenceOf(a[1..], b[1..])) || SubsequenceOf(a, b[1..])
  }

  /** Candidate paths, in input order, that stat does not report missing. */
  function ExistingPaths(p: Paths, stat: string -> StatResult, dir: string, osType: string,
                         names: seq<string>): (paths: seq<string>)
    ensures |paths| <= |names|
  {
    if names == [] then []
    else
      var q := KernelFilePath(p, dir, osType, names[0]);
      var rest := ExistingPaths(p, stat, dir, osType, names[1..]);
      if stat(q) == NotExist then rest else [q] + rest
  }

  /** The candidates are the names' paths with some left out, in the order of
      the names. */
  lemma {:induction false} ExistingPathsInNameOrder(p: Paths, stat: string -> StatResult, dir: string,
                                                    osType: string, names: seq<string>)
    ensures SubsequenceOf(ExistingPaths(p, stat, dir, osType, names), Candidates(p, dir, osType, names))
  {
    if names != [] {
      ExistingPathsInNameOrder(p, stat, dir, osType, names[1..]);
      assert Candidates(p, dir, osType, names)[1..] == Candidates(p, dir, osType, names[1..]);
    }
  }

  /** A candidate survives exactly when it is the path of an expected name and
      stat reports anything but "not exist" for it, other stat errors included. */
  lemma {:induction false} ExistingPathsMembers(p: Paths, stat: string -> StatResult, dir: string,
                                                osType: string, names: seq<string>)
    ensures forall q :: q in ExistingPaths(p, stat, dir, osType, names) <==>
      exists f :: f in names && q == KernelFilePath(p, dir, osType, f) && stat(q) != NotExist
  {
    if names != [] {
      ExistingPathsMembers(p, stat, dir, osType, names[1..]);
      assert forall f :: f in names <==> f == names[0] || f in names[1..];
    }
  }

  /** `xs` without the elements of `seen` and without repeats, keeping the
      first occurrence of each element. */
  function DedupFrom<T(==)>(xs: seq<T>, seen: set<T>): seq<T>
  {
    if xs == [] then []
    else if xs[0] in seen then DedupFrom(xs[1..], seen)
    else [xs[0]] + DedupFrom(xs[1..], seen + {xs[0]})
  }

  /** Leaving out elements twice is leaving them out once. */
  lemma {:induction false} SubsequenceTrans<T>(a: seq<T>, b: seq<T>, c: seq<T>)
    requires SubsequenceOf(a, b) && SubsequenceOf(b, c)
    ensures SubsequenceOf(a, c)
    decreases |c|
  {
    if a != [] {
      if SubsequenceOf(b, c[1..]) {
        SubsequenceTrans(a, b, c[1..]);
      } else if a[0] == b[0] && SubsequenceOf(a[1..], b[1..]) {
        SubsequenceTrans(a[1..], b[1..], c[1..]);
      } else {
        SubsequenceTrans(a, b[1..], c[1..]);
      }
    }
  }

  /** De-duplication only leaves elements out. */
  lemma {:induction false} DedupFromSubsequence<T>(xs: seq<T>, seen: set<T>)
    ensures SubsequenceOf(DedupFrom(xs, seen), xs)
  {
    if xs != [] {
      if xs[0] in seen {
        DedupFromSubsequence(xs[1..], seen);
      } else {
        DedupFromSubsequence(xs[1..], seen + {xs[0]});
        assert ([xs[0]] + DedupFrom(xs[1..], seen + {xs[0]}))[1..] == DedupFrom(xs[1..], seen + {xs[0]});
      }
    }
  }

  /** One unfolding of `DedupFrom` on a sequence built by prepending. */
  lemma DedupFromCons<T>(x: T, rest: seq<T>, seen: set<T>)
    ensures DedupFrom([x] + rest, seen)
      == if x in seen then DedupFrom(rest, seen) else [x] + DedupFrom(rest, seen + {x})
  {
    assert ([x] + rest)[1..] == rest;
  }

  predicate NoDuplicates<T(==)>(xs: seq<T>)
  {
    forall i, j :: 0 <= i < j < |xs| ==> xs[i] != xs[j]
  }

  /** Position of the first occurrence of `x` in `xs`. */
  function FirstIndex<T(==)>(xs: seq<T>, x: T): (i: nat)
    requires x in xs
    ensures i < |xs| && xs[i] == x
    ensures forall j :: 0 <= j < i ==> xs[j] != x
  {
    if xs[0] == x then 0 else 1 + FirstIndex(xs[1..], x)
  }

  /** `DedupFrom` keeps exactly the elements of `xs` outside `seen`. */
  lemma {:induction false} DedupFromMembers<T>(xs: seq<T>, seen: set<T>)
    ensures |DedupFrom(xs, seen)| <= |xs|
    ensures forall y :: y in DedupFrom(xs, seen) <==> y in xs && y !in seen
  {
    if xs != [] {
      assert forall y :: y in xs <==> y == xs[0] || y in xs[1..];
      if xs[0] in seen {
        DedupFromMembers(xs[1..], seen);
      } else {
        DedupFromMembers(xs[1..], seen + {xs[0]});
      }
    }
  }

  /** `DedupFrom` keeps each element once. */
  lemma {:induction false} DedupFromNoDuplicates<T>(xs: seq<T>, seen: set<T>)
    ensures NoDuplicates(DedupFrom(xs, seen))
  {
    if xs != [] {
      if xs[0] in seen {
        DedupFromNoDuplicates(xs[1..], seen);
      } else {
        var x := xs[0];
        DedupFromNoDuplicates(xs[1..], seen + {x});
        DedupFromMembers(xs[1..], seen + {x});
        var tail := DedupFrom(xs[1..], seen + {x});
        var r := [x] + tail;
        assert x !in tail;
        forall i, j | 0 <= i < j < |r| ensures r[i] != r[j] {
          assert r[j] == tail[j - 1];
          if i > 0 {
            assert r[i] == tail[i - 1];
          }
        }
      }
    }
  }

  /** The elements of `r` appear in `xs` and `r` lists them in the order of
      their first occurrences there. */
  predicate FirstSeenOrdered<T(==)>(r: seq<T>, xs: seq<T>)
  {
    && (forall k :: 0 <= k < |r| ==> r[k] in xs)
    && (forall i, j :: 0 <= i < j < |r| ==> FirstIndex(xs, r[i]) < FirstIndex(xs, r[j]))
  }

  /** Prepending an element that `r` does not hold shifts every first index
      by one, so the order carries over. */
  lemma FirstSeenOrderedCons<T>(x: T, t: seq<T>, r: seq<T>)
    requires FirstSeenOrdered(r, t)
    requires forall k :: 0 <= k < |r| ==> r[k] != x
    ensures FirstSeenOrdered(r, [x] + t)
  {
    var xs := [x] + t;
    assert xs[1..] == t;
    forall k | 0 <= k < |r| ensures r[k] in xs && FirstIndex(xs, r[k]) == 1 + FirstIndex(t, r[k]) {
      assert r[k] in t;
    }
  }

  /** Putting `x` in front of both sides keeps the order, `x` having first index 0. */
  lemma FirstSeenOrderedHead<T>(x: T, t: seq<T>, tail: seq<T>)
    requires FirstSeenOrdered(tail, t)
    requires forall k :: 0 <= k < |tail| ==> tail[k] != x
    ensures FirstSeenOrdered([x] + tail, [x] + t)
  {
    FirstSeenOrderedCons(x, t, tail);
    var xs := [x] + t;
    var r := [x] + tail;
    forall k | 0 <= k < |r| ensures r[k] in xs && (k > 0 ==> FirstIndex(xs, r[k]) > 0) {
      if k > 0 {
        assert r[k] == tail[k - 1];
      }
    }
    forall i, j | 0 <= i < j < |r| ensures FirstIndex(xs, r[i]) < FirstIndex(xs, r[j]) {
      assert r[j] == tail[j - 1];
      if i > 0 {
        assert r[i] == tail[i - 1];
      }
    }
  }

  /** `DedupFrom` lists what it keeps in the order of first occurrence in `xs`. */
  lemma {:induction false} DedupFromFirstSeenOrder<T>(xs: seq<T>, seen: set<T>)
    ensures FirstSeenOrdered(DedupFrom(xs, seen), xs)
  {
    if xs != [] {
      var x := xs[0];
      var t := xs[1..];
      assert xs == [x] + t;
      if x in seen {
        DedupFromFirstSeenOrder(t, seen);
        DedupFromMembers(t, seen);
        FirstSeenOrderedCons(x, t, DedupFrom(t, seen));
      } else {
        DedupFromFirstSeenOrder(t, seen + {x});
        DedupFromMembers(t, seen + {x});
        FirstSeenOrderedHead(x, t, DedupFrom(t, seen + {x}));
      }
    }
  }

  /** The reference definition of `GetLocalKernelFiles`. */
  function LocalKernelFiles(localKernelDir: string, osType: string, kernelFileNames: seq<string>,
                            exe: Result<string, string>, p: Paths, stat: string -> StatResult)
    : Result<seq<string>, LocalError>
  {
    match ResolveLocalKernelDir(localKernelDir, exe, p)
    case Err(e) => Err(e)
    case Ok(dir) =>
      var found := DedupFrom(ExistingPaths(p, stat, dir, osType, kernelFileNames), {});
      if found == [] then Err(NotFound(dir)) else Ok(found)
  }

  /** The promises of the lookup: it fails exactly when the directory cannot
      be derived or no candidate survives; a surviving path is the join of the
      directory, the OS type and an expected name whose stat is anything but
      "not exist"; paths are unique, in the order of their first appearance,
      and no more numerous than the expected names. */
  lemma LocalKernelFilesSpec(localKernelDir: string, osType: string, kernelFileNames: seq<string>,
                             exe: Result<string, string>, p: Paths, stat: string -> StatResult)
    ensures var r := LocalKernelFiles(localKernelDir, osType, kernelFileNames, exe, p, stat);
      var resolved := ResolveLocalKernelDir(localKernelDir, exe, p);
      && (resolved.Err? ==> r == Err(resolved.error))
      && (resolved.Ok? ==>
        var dir := resolved.value;
        var candidates := ExistingPaths(p, stat, dir, osType, kernelFileNames);
        && (r.Err? <==> candidates == [])
        && (r.Err? ==> r.error == NotFound(dir))
        && (r.Ok? ==>
              && r.value != []
              && |r.value| <= |kernelFileNames|
              && NoDuplicates(r.value)
              && (forall q :: q in r.value <==>
                    exists f :: f in kernelFileNames && q == KernelFilePath(p, dir, osType, f)
                                && stat(q) != NotExist)
              && FirstSeenOrdered(r.value, candidates)
              && SubsequenceOf(r.value, Candidates(p, dir, osType, kernelFileNames))))
  {
    var resolved := ResolveLocalKernelDir(localKernelDir, exe, p);
    if resolved.Ok? {
      var dir := resolved.value;
      var candidates := ExistingPaths(p, stat, dir, osType, kernelFileNames);
      ExistingPathsMembers(p, stat, dir, osType, kernelFileNames);
      DedupFromMembers(candidates, {});
      DedupFromNoDuplicates(candidates, {});
      DedupFromFirstSeenOrder(candidates, {});
      ExistingPathsInNameOrder(p, stat, dir, osType, kernelFileNames);
      DedupFromSubsequence(candidates, {});
      SubsequenceTrans(DedupFrom(candidates, {}), candidates, Candidates(p, dir, osType, kernelFileNames));
      if candidates != [] {
        assert candidates[0] in DedupFrom(candidates, {});
      }
    }
  }

  /** One step of the walk: the candidates of `names[i..]` are the candidate of
      `names[i]`, when it exists, followed by those of `names[i + 1..]`. */
  lemma ExistingPathsStep(p: Paths, stat: string -> StatResult, dir: string, osType: string,
                          names: seq<string>, i: nat)
    requires i < |names|
    ensures var q := KernelFilePath(p, dir, osType, names[i]);
      ExistingPaths(p, stat, dir, osType, names[i..])
      == (if stat(q) == NotExist then [] else [q]) + ExistingPaths(p, stat, dir, osType, names[i + 1..])
  {
    assert names[i..][1..] == names[i + 1..];
  }

  /** The loop of `GetLocalKernelFiles`: walks the expected names once, keeping a
      set of the paths already taken, as the source does with its `keys` map; the
      result is the existing candidates, first occurrences only, in order. */
  method CollectExisting(p: Paths, stat: string -> StatResult, dir: string, osType: string,
                         kernelFileNames: seq<string>)
    returns (paths: seq<string>)
    ensures paths == DedupFrom(ExistingPaths(p, stat, dir, osType, kernelFileNames), {})
  {
    ghost var all := DedupFrom(ExistingPaths(p, stat, dir, osType, kernelFileNames), {});
    paths := [];
    var keys: set<string> := {};
    var i := 0;
    assert kernelFileNames[0..] == kernelFileNames;
    while i < |kernelFileNames|
      invariant 0 <= i <= |kernelFileNames|
      invariant forall q :: q in keys <==> q in paths
      invariant paths + DedupFrom(ExistingPaths(p, stat, dir, osType, kernelFileNames[i..]), keys) == all
    {
      var filePath := KernelFilePath(p, dir, osType, kernelFileNames[i]);
      ghost var cur := ExistingPaths(p, stat, dir, osType, kernelFileNames[i..]);
      ghost var rest := ExistingPaths(p, stat, dir, osType, kernelFileNames[i + 1..]);
      ExistingPathsStep(p, stat, dir, osType, kernelFileNames, i);
      if stat(filePath) != NotExist {
        assert cur == [filePath] + rest;
        DedupFromCons(filePath, rest, keys);
        if filePath !in keys {
          ghost var tail := DedupFrom(rest, keys + {filePath});
          assert DedupFrom(cur, keys) == [filePath] + tail;
          assert paths + ([filePath] + tail) == (paths + [filePath]) + tail;
          paths := paths + [filePath];
          keys := keys + {filePath};
        } else {
          assert DedupFrom(cur, keys) == DedupFrom(rest, keys);
        }
      } else {
        assert cur == rest;
      }
      i := i + 1;
    }
    assert kernelFileNames[i..] == [];
  }

  /** `GetLocalKernelFiles`: resolve the directory, collect, fail on nothing found. */
  method GetLocalKernelFiles(localKernelDir: string, osType: string, kernelFileNames: seq<string>,
                             exe: Result<string, string>, p: Paths, stat: string -> StatResult)
    returns (r: Result<seq<string>, LocalError>)
    ensures r == LocalKernelFiles(localKernelDir, osType, kernelFileNames, exe, p, stat)
  {
    var resolved := ResolveLocalKernelDir(localKernelDir, exe, p);
    if resolved.Err? {
      return Err(resolved.error);
    }
    var dir := resolved.value;
    var paths := CollectExisting(p, stat, dir, osType, kernelFileNames);
    if |paths| == 0 {
      return Err(NotFound(dir));
    }
    return Ok(paths);
  }
}

=== FILE: filesystem.dfy ===
/**
 * The operating-system services the core consults, kept abstract: the outcome
 * of `os.Stat` on a path, and the pure path functions `filepath.Join` and
 * `filepath.Dir`.
 */
module FileSystem {

  /** What `os.Stat` reports for a path: the entry is missing (`os.IsNotExist`),
      stat failed for another reason (permission, I/O), or the entry exists and
      is or is not a directory. */
  datatype StatResult = NotExist | StatError | Exists(isDir: bool)

  /** `filepath.Join` over any number of elements and `filepath.Dir`. */
  datatype Paths = Paths(join: seq<string> -> string, dir: string -> string)
}

=== FILE: isfilepath.dfy ===
/**
 * The three custom path validators registered with the field validator. Each
 * inspects the `os.Stat` outcome of the field's string value; a field of any
 * other kind makes them panic, which is modelled as a precondition.
 */
module Validate {
  import opened FileSystem

  /** The reflected field a validator receives: a string, or any other kind. */
  datatype FieldValue = StringField(s: string) | OtherField

  /** `isFilePath`: the path may be created as a file. A missing entry is
      acceptable, an entry that cannot be inspected is not, and an existing
      entry must not be a directory. */
  function IsFilePath(field: FieldValue, stat: string -> StatResult): (ok: bool)
    requires field.StringField?
    ensures stat(field.s) == NotExist ==> ok
    ensures stat(field.s) == StatError ==> !ok
    ensures stat(field.s).Exists? ==> (ok <==> !stat(field.s).isDir)
  {
    match stat(field.s)
    case NotExist => true
    case StatError => false
    case Exists(isDir) => !isDir
  }

  /** `isExistFilePath`: the path names an existing non-directory. A stat
      failure other than "not exist" is given the benefit of the doubt. */
  function IsExistFilePath(field: FieldValue, stat: string -> StatResult): (ok: bool)
    requires field.StringField?
    ensures stat(field.s) == NotExist ==> !ok
    ensures stat(field.s) == StatError ==> ok
    ensures stat(field.s).Exists? ==> (ok <==> !stat(field.s).isDir)
  {
    match stat(field.s)
    case NotExist => false
    case StatError => true
    case Exists(isDir) => !isDir
  }

  /** `isExistDirPath`: the path names an existing directory, with the same
      benefit of the doubt on other stat failures. */
  function IsExistDirPath(field: FieldValue, stat: string -> StatResult): (ok: bool)
    requires field.StringField?
    ensures stat(field.s) == NotExist ==> !ok
    ensures stat(field.s) == StatError ==> ok
    ensures stat(field.s).Exists? ==> (ok <==> stat(field.s).isDir)
  {
    match stat(field.s)
    case NotExist => false
    case StatError => true
    case Exists(isDir) => isDir
  }

  /** On an existing entry exactly one of "existing file" and "existing
      directory" holds; on a stat error both hold; on a missing entry neither. */
  lemma ExistFileAndDirComplementary(field: FieldValue, stat: string -> StatResult)
    requires field.StringField?
    ensures stat(field.s).Exists? ==>
      (IsExistFilePath(field, stat) <==> !IsExistDirPath(field, stat))
    ensures stat(field.s) == StatError ==>
      IsExistFilePath(field, stat) && IsExistDirPath(field, stat)
    ensures stat(field.s) == NotExist ==>
      !IsExistFilePath(field, stat) && !IsExistDirPath(field, stat)
  {
  }

  /** `isFilePath` and `isExistFilePath` differ only in how they read a stat
      failure: they agree on existing entries and disagree otherwise. */
  lemma FilePathAndExistFilePathDifferOnlyOnStatFailure(field: FieldValue, stat: string -> StatResult)
    requires field.StringField?
    ensures IsFilePath(field, stat) == IsExistFilePath(field, stat) <==> stat(field.s).Exists?
  {
  }
}

=== FILE: kernelrelease.dfy ===
/**
 * The parsed kernel release and its support matrix. The parser and the matrix
 * live in the `kernelrelease` package, which is not part of this model: they
 * are uninterpreted functions bundled in `Support`.
 */
module KernelReleases {

  /** A parsed `uname -r` string together with the architecture it targets. */
  datatype KernelRelease = KernelRelease(
    major: int,
    minor: int,
    patch: int,
    extraversion: string,
    architecture: string)

  /** `kernelrelease.FromString`, `KernelRelease.SupportsModule` and
      `KernelRelease.SupportsProbe`, left uninterpreted. */
  datatype Support = Support(
    fromString: string -> KernelRelease,
    supportsModule: KernelRelease -> bool,
    supportsProbe: KernelRelease -> bool)

  /** The assignment `kr.Architecture = kernelrelease.Architecture(arch)`. */
  function WithArchitecture(kr: KernelRelease, arch: string): (r: KernelRelease)
    ensures r.architecture == arch
    ensures r.major == kr.major && r.minor == kr.minor && r.patch == kr.patch
    ensures r.extraversion == kr.extraversion
  {
    kr.(architecture := arch)
  }

  /** The release parsed from `release` and retargeted to `arch`: the step both
      `RootOptions.Validate` and `Build.KernelReleaseFromBuildConfig` perform. */
  function ParseFor(k: Support, release: string, arch: string): KernelRelease
  {
    WithArchitecture(k.fromString(release), arch)
  }

  /** The release can produce at least one of the two drivers. */
  predicate SupportsAny(k: Support, kr: KernelRelease)
  {
    k.supportsModule(kr) || k.supportsProbe(kr)
  }
}

=== FILE: root.dfy ===
/**
 * The pre-run hook of the root command: merging configuration-file and
 * environment values into the flags, normalising the target, recording the
 * online mode and validating the options. Viper's lookups are abstract maps;
 * what a flag's own `Set` does with a string is an uninterpreted function.
 */
module Root {
  import opened Wrappers
  import opened Builder
  import opened Options
  import opened Strings

  /** Every Ubuntu flavour (`ubuntu-generic`, `ubuntu-aws`, ...) is handled as
      `ubuntu`. */
  function NormalizeTarget(target: string): (t: string)
    ensures t == TargetUbuntu <==> TargetUbuntu <= target
    ensures t != TargetUbuntu ==> t == target
  {
    if TargetUbuntu <= target then TargetUbuntu else target
  }

  lemma NormalizeTargetIdempotent(target: string)
    ensures NormalizeTarget(NormalizeTarget(target)) == NormalizeTarget(target)
  {
  }

  // ---------------------------------------------------------------------------
  // Flags and the configuration store

  /** The current value of a registered flag, by the flag's type. */
  datatype FlagValue =
    | StringValue(s: string)
    | SliceValue(items: seq<string>)
    | BoolValue(b: bool)
    | IntValue(n: int)

  /** Viper's answer for a key: `GetString` and `GetStringSlice`. Every flag
      is bound to viper, so the answer is a changed command-line flag's own
      value, else the environment's, else the config file's, else the flag's
      default; that precedence lives inside these maps. */
  datatype Viper = Viper(strings: map<string, string>, slices: map<string, seq<string>>)

  function GetString(v: Viper, key: string): string
  {
    if key in v.strings then v.strings[key] else ""
  }

  function GetStringSlice(v: Viper, key: string): seq<string>
  {
    if key in v.slices then v.slices[key] else []
  }

  /** Flags the merge never touches. */
  const SkippedFlags: set<string> := {"config", "timeout", "dryrun", "proxy"}

  /** Flags whose value may sit under a nested key of the configuration file. */
  const NestedKeys: map<string, string> := map["output-module" := "output.module", "output-probe" := "output.probe"]

  const KernelUrlsFlag := "kernelurls"

  /** `flags.GetStringSlice(name)`: only a slice flag yields a value. */
  function CliSlice(f: FlagValue): Option<seq<string>>
  {
    if f.SliceValue? then Some(f.items) else None
  }

  /** `strings.Join(items, ",")`. */
  function JoinComma(items: seq<string>): string
  {
    if items == [] then ""
    else if |items| == 1 then items[0]
    else items[0] + "," + JoinComma(items[1..])
  }

  /** Splitting at every `,`, the inverse of `JoinComma` on comma-free items. */
  function SplitComma(s: string): seq<string>
  {
    var i := IndexOf(s, ',');
    if i == |s| then [s] else [s[..i]] + SplitComma(s[i + 1..])
  }

  /** Splitting at every comma undoes the comma-join of a non-empty list of
      comma-free items. This is the join alone: how the flag's `Set` reads
      the joined string back is not part of this model. */
  lemma {:induction false} JoinCommaRoundTrip(items: seq<string>)
    requires items != []
    requires forall k :: 0 <= k < |items| ==> ',' !in items[k]
    ensures SplitComma(JoinComma(items)) == items
  {
    var x := items[0];
    assert IndexOf(x, ',') == |x|;
    if |items| > 1 {
      var rest := JoinComma(items[1..]);
      var s := x + "," + rest;
      assert forall j :: 0 <= j < |x| ==> s[j] == x[j];
      assert s[|x|] == ',';
      assert IndexOf(s, ',') == |x|;
      assert s[..|x|] == x;
      assert s[|x| + 1..] == rest;
      JoinCommaRoundTrip(items[1..]);
      assert items == [x] + items[1..];
    }
  }

  /** What the merge does to one flag. */
  datatype MergeAction = Keep | SetTo(value: string)

  /** The per-flag decision of the merge: skipped flags are kept; a slice of
      kernel URLs given on the command line wins over the configuration,
      otherwise viper's slice for the key is set as its comma-join; any other
      flag takes viper's answer for the key, else viper's answer for its
      nested `output.*` key, else keeps its own. */
  function Decide(name: string, current: FlagValue, v: Viper): (a: MergeAction)
    ensures name in SkippedFlags ==> a == Keep
    ensures name !in SkippedFlags && name == KernelUrlsFlag ==>
      && ((CliSlice(current).Some? && CliSlice(current).value != []) || GetStringSlice(v, name) == [] <==> a == Keep)
      && (a.SetTo? ==> a.value == JoinComma(GetStringSlice(v, name)))
    ensures name !in SkippedFlags && name != KernelUrlsFlag ==>
      && (GetString(v, name) != "" ==> a == SetTo(GetString(v, name)))
      && (GetString(v, name) == "" && name in NestedKeys ==>
            a == (if GetString(v, NestedKeys[name]) != "" then SetTo(GetString(v, NestedKeys[name])) else Keep))
      && (GetString(v, name) == "" && name !in NestedKeys ==> a == Keep)
  {
    if name in SkippedFlags then Keep
    else if name == KernelUrlsFlag then
      var cli := CliSlice(current);
      if cli.Some? && |cli.value| != 0 then Keep
      else
        var value := GetStringSlice(v, name);
        if |value| != 0 then SetTo(JoinComma(value)) else Keep
    else
      var top := GetString(v, name);
      var value := if top == "" && name in NestedKeys then GetString(v, NestedKeys[name]) else top;
      if value != "" then SetTo(value) else Keep
  }

  function ApplyAction(f: FlagValue, a: MergeAction, setFlag: (FlagValue, string) -> FlagValue): FlagValue
  {
    match a
    case Keep => f
    case SetTo(value) => setFlag(f, value)
  }

  /** `VisitAll` over the flag set. Each flag's decision reads only its own
      value and the configuration, so the visiting order does not matter. */
  function MergeFlags(flags: map<string, FlagValue>, v: Viper, setFlag: (FlagValue, string) -> FlagValue)
    : (merged: map<string, FlagValue>)
    ensures merged.Keys == flags.Keys
  {
    map name | name in flags :: ApplyAction(flags[name], Decide(name, flags[name], v), setFlag)
  }

  /** Each flag ends up as its own merge decision applied to it. In
      particular the merge leaves untouched the skipped flags, every flag the
      configuration says nothing about, and kernel URLs given on the command
      line; it writes viper's answer for the key, else viper's answer for the
      nested `output.*` key, into every other flag; and it hands viper's
      kernel URLs to their flag as one comma-joined string. */
  lemma MergeFlagsFrame(flags: map<string, FlagValue>, v: Viper, setFlag: (FlagValue, string) -> FlagValue, name: string)
    requires name in flags
    ensures var merged := MergeFlags(flags, v, setFlag);
      && merged[name] == ApplyAction(flags[name], Decide(name, flags[name], v), setFlag)
      && (name in SkippedFlags ==> merged[name] == flags[name])
      && ((name != KernelUrlsFlag && GetString(v, name) == ""
           && (name !in NestedKeys || GetString(v, NestedKeys[name]) == "")) ==> merged[name] == flags[name])
      && (name == KernelUrlsFlag && flags[name].SliceValue? && flags[name].items != [] ==> merged[name] == flags[name])
      && (name !in SkippedFlags && name != KernelUrlsFlag && GetString(v, name) != "" ==>
            merged[name] == setFlag(flags[name], GetString(v, name)))
      && (name !in SkippedFlags && name != KernelUrlsFlag && GetString(v, name) == ""
          && name in NestedKeys && GetString(v, NestedKeys[name]) != "" ==>
            merged[name] == setFlag(flags[name], GetString(v, NestedKeys[name])))
      && (name == KernelUrlsFlag && !(flags[name].SliceValue? && flags[name].items != [])
          && GetStringSlice(v, name) != [] ==>
            merged[name] == setFlag(flags[name], JoinComma(GetStringSlice(v, name))))
  {
  }

  // ---------------------------------------------------------------------------
  // Flag variables

  function StringFlag(flags: map<string, FlagValue>, name: string): string
  {
    if name in flags && flags[name].StringValue? then flags[name].s else ""
  }

  function SliceFlag(flags: map<string, FlagValue>, name: string): seq<string>
  {
    if name in flags && flags[name].SliceValue? then flags[name].items else []
  }

  function BoolFlag(flags: map<string, FlagValue>, name: string): bool
  {
    name in flags && flags[name].BoolValue? && flags[name].b
  }

  /** The option fields as the flags registered for them hold them. */
  function OptionsFromFlags(flags: map<string, FlagValue>): (o: RootOptions)
    ensures o.architecture == StringFlag(flags, "architecture")
    ensures o.moduleFilePath == StringFlag(flags, "modulefilepath")
    ensures o.kernelVersion == StringFlag(flags, "kernelversion")
    ensures o.moduleDriverName == StringFlag(flags, "moduledrivername")
    ensures o.moduleDeviceName == StringFlag(flags, "moduledevicename")
    ensures o.kernelRelease == StringFlag(flags, "kernelrelease")
    ensures o.target == StringFlag(flags, "target")
    ensures o.kernelConfigData == StringFlag(flags, "kernelconfigdata")
    ensures o.builderImage == StringFlag(flags, "builderimage")
    ensures o.builderRepos == SliceFlag(flags, "builderrepo")
    ensures o.gccVersion == StringFlag(flags, "gccversion")
    ensures o.kernelUrls == SliceFlag(flags, KernelUrlsFlag)
    ensures o.repo == RepoOptions(StringFlag(flags, "repo-org"), StringFlag(flags, "repo-name"))
    ensures o.output == OutputOptions(StringFlag(flags, "output-module"), StringFlag(flags, "output-probe"))
    ensures o.localKernelDir == StringFlag(flags, "localkerneldir")
  {
    RootOptions(
      architecture := StringFlag(flags, "architecture"),
      moduleFilePath := StringFlag(flags, "modulefilepath"),
      kernelVersion := StringFlag(flags, "kernelversion"),
      moduleDriverName := StringFlag(flags, "moduledrivername"),
      moduleDeviceName := StringFlag(flags, "moduledevicename"),
      kernelRelease := StringFlag(flags, "kernelrelease"),
      target := StringFlag(flags, "target"),
      kernelConfigData := StringFlag(flags, "kernelconfigdata"),
      builderImage := StringFlag(flags, "builderimage"),
      builderRepos := SliceFlag(flags, "builderrepo"),
      gccVersion := StringFlag(flags, "gccversion"),
      kernelUrls := SliceFlag(flags, KernelUrlsFlag),
      repo := RepoOptions(StringFlag(flags, "repo-org"), StringFlag(flags, "repo-name")),
      output := OutputOptions(StringFlag(flags, "output-module"), StringFlag(flags, "output-probe")),
      localKernelDir := StringFlag(flags, "localkerneldir"))
  }

  // ---------------------------------------------------------------------------
  // The pre-run hook

  /** The command being run. */
  datatype Command = Command(name: string, isRoot: bool)

  /** Commands that run whatever the options say. */
  const UnguardedCommands: set<string> := {"help", "__complete", "__completeNoDesc", "completion"}

  predicate ValidatesOptions(cmd: Command)
  {
    !cmd.isRoot && cmd.name !in UnguardedCommands
  }

  /** The logger as the hook sees it: the current level and whether a level
      name parses. */
  datatype Logging = Logging(currentLevel: string, parses: string -> bool)

  datatype PreRunError = ConfigErrors | InvalidLogLevel | InvalidOptions(errors: seq<OptionError>)

  /** What the hook leaves behind: the merged flags (the `target` flag
      normalised in place), the options the command will run with, and the
      online-mode state. */
  datatype PreRun = PreRun(flags: map<string, FlagValue>, options: RootOptions, online: OnlineState)

  /** The flags after the hook normalises `rootOpts.Target`: the `target`
      flag is bound to that field, so a string value is rewritten in place. */
  function NormalizeTargetFlag(merged: map<string, FlagValue>): (flags: map<string, FlagValue>)
    ensures flags.Keys == merged.Keys
    ensures forall name :: name in merged && name != "target" ==> flags[name] == merged[name]
    ensures StringFlag(flags, "target") == NormalizeTarget(StringFlag(merged, "target"))
  {
    if "target" in merged && merged["target"].StringValue?
    then merged["target" := StringValue(NormalizeTarget(merged["target"].s))]
    else merged
  }

  /** The options the command runs with: those the merged flags hold, with
      the target normalised and every other field as its flag says. */
  function MergedOptions(merged: map<string, FlagValue>): (o: RootOptions)
    ensures NormalizeTarget(o.target) == o.target
    ensures o.target == TargetUbuntu <==> TargetUbuntu <= StringFlag(merged, "target")
    ensures o.target != TargetUbuntu ==> o.target == StringFlag(merged, "target")
    ensures o == OptionsFromFlags(merged).(target := o.target)
  {
    OptionsFromFlags(NormalizeTargetFlag(merged))
  }

  /** The hook once the flags are merged: the log-level check, the online
      mode, the target normalisation and, unless the command is exempt, the
      validation of the options. */
  function AfterMerge(
    merged: map<string, FlagValue>,
    log: Logging,
    online: OnlineState,
    cmd: Command,
    c: Checks): (r: Result<PreRun, PreRunError>)
    ensures r != Err(ConfigErrors)
    ensures var level := StringFlag(merged, "loglevel");
      var levelOk := level == log.currentLevel || log.parses(level);
      var opts := MergedOptions(merged);
      && (r == Err(InvalidLogLevel) <==> !levelOk)
      && (r.Ok? <==> levelOk && (ValidatesOptions(cmd) ==> ValidateOptions(opts, c) == []))
      && (r.Ok? ==>
            && r.value.flags == NormalizeTargetFlag(merged)
            && r.value.options == opts
            && r.value.options == OptionsFromFlags(r.value.flags)
            && IsOnlineMode(r.value.online) == BoolFlag(merged, "onlinemode"))
      && (r.Err? && r.error.InvalidOptions? <==>
            levelOk && ValidatesOptions(cmd) && ValidateOptions(opts, c) != [])
      && (r.Err? && r.error.InvalidOptions? ==> r.error.errors == ValidateOptions(opts, c))
  {
    var level := StringFlag(merged, "loglevel");
    if level != log.currentLevel && !log.parses(level) then Err(InvalidLogLevel)
    else
      var state := SetOnlineMode(online, BoolFlag(merged, "onlinemode"));
      var normalized := NormalizeTargetFlag(merged);
      var opts := MergedOptions(merged);
      if ValidatesOptions(cmd) && ValidateOptions(opts, c) != [] then Err(InvalidOptions(ValidateOptions(opts, c)))
      else Ok(PreRun(normalized, opts, state))
  }

  /** `persistentValidateFunc`: the early exit on configuration errors, then
      the merge, then the rest of the hook on the merged flags. The hook adds
      and drops no flag. */
  function PersistentValidate(
    configErrors: bool,
    flags: map<string, FlagValue>,
    v: Viper,
    setFlag: (FlagValue, string) -> FlagValue,
    log: Logging,
    online: OnlineState,
    cmd: Command,
    c: Checks): (r: Result<PreRun, PreRunError>)
    ensures r == Err(ConfigErrors) <==> configErrors
    ensures !configErrors ==> r == AfterMerge(MergeFlags(flags, v, setFlag), log, online, cmd, c)
    ensures r.Ok? ==> r.value.flags.Keys == flags.Keys
  {
    if configErrors then Err(ConfigErrors)
    else AfterMerge(MergeFlags(flags, v, setFlag), log, online, cmd, c)
  }

  /** Normalisation happens before validation: an Ubuntu flavour without a
      kernel version is rejected under the `ubuntu` rule. */
  lemma UbuntuFlavourValidatedAsUbuntu(
    flags: map<string, FlagValue>, v: Viper, setFlag: (FlagValue, string) -> FlagValue,
    log: Logging, online: OnlineState, cmd: Command, c: Checks)
    requires ValidatesOptions(cmd)
    requires var merged := MergeFlags(flags, v, setFlag);
      && TargetUbuntu <= StringFlag(merged, "target")
      && StringFlag(merged, "kernelversion") == ""
      && (StringFlag(merged, "loglevel") == log.currentLevel || log.parses(StringFlag(merged, "loglevel")))
    ensures var r := PersistentValidate(false, flags, v, setFlag, log, online, cmd, c);
      r.Err? && r.error.InvalidOptions? && KernelVersionError in r.error.errors
  {
    var merged := MergeFlags(flags, v, setFlag);
    var opts := MergedOptions(merged);
    assert opts.target == TargetUbuntu && opts.kernelVersion == "";
    assert KernelVersionError in StructLevelErrors(opts);
  }
}

=== FILE: root_options.dfy ===
/**
 * The command-line options, their validation, and their translation into the
 * `Build` record. Validation follows the field tags of `RootOptions` and
 * `OutputOptions` and the struct-level rule registered for `RootOptions`.
 */
module Options {
  import opened Wrappers
  import opened FileSystem
  import opened KernelReleases
  import opened Builder
  import Validate

  /** The two drivers that can be built; empty means "not requested". */
  datatype OutputOptions = OutputOptions(modulePath: string, probePath: string)

  datatype RepoOptions = RepoOptions(org: string, name: string)

  datatype RootOptions = RootOptions(
    architecture: string,
    moduleFilePath: string,
    kernelVersion: string,
    moduleDriverName: string,
    moduleDeviceName: string,
    kernelRelease: string,
    target: string,
    kernelConfigData: string,
    builderImage: string,
    builderRepos: seq<string>,
    gccVersion: string,
    kernelUrls: seq<string>,
    repo: RepoOptions,
    output: OutputOptions,
    localKernelDir: string)

  /** base64 of "no-data": stands for absent kernel configuration data. */
  const NoKernelConfigData := "bm8tZGF0YQ=="
  /** The builder repository always searched last. */
  const DefaultBuilderRepo := "docker.io/falcosecurity/driverkit"
  const DefaultKernelVersion := "1"
  const MaxDriverNameLength := 60
  const MaxDeviceNameLength := 255

  /** `NewRootOptions`: the zero value with the one `default` tag applied. */
  function NewRootOptions(): (o: RootOptions)
    ensures o.kernelVersion == DefaultKernelVersion
    ensures o.target == "" && o.kernelRelease == "" && o.architecture == ""
    ensures o.output == OutputOptions("", "") && o.builderRepos == [] && o.kernelUrls == []
    ensures o.moduleFilePath == "" && o.moduleDriverName == "" && o.moduleDeviceName == ""
    ensures o.kernelConfigData == "" && o.builderImage == "" && o.gccVersion == ""
    ensures o.repo == RepoOptions("", "") && o.localKernelDir == ""
  {
    RootOptions("", "", DefaultKernelVersion, "", "", "", "", "", "", [], "", [], RepoOptions("", ""),
                OutputOptions("", ""), "")
  }

  // ---------------------------------------------------------------------------
  // Field tags

  /** The validation tags used on the option fields, and the struct-level
      rules reported under their own tags. */
  datatype Tag =
    | Required | RequiredWithout | EndsWith | Max | Excludes
    | FilePathTag | Base64Tag | ImageNameTag | SemverTolerantTag | ArchitectureTag | TargetTag | AsciiTag
    | IsExistFilePathTag | IsExistDirPathTag
    | RequiredKernelConfigDataWithTargetVanilla
    | RequiredKernelVersionWithTargetUbuntu
    | RequiredBuilderImageWithTargetRedhat

  /** One validation failure: the field and the tag it failed, or the final
      support check. */
  datatype OptionError = FieldError(field: string, tag: Tag) | NeitherSupported

  /** The tags whose implementations are not part of this model (the
      validator library's `base64` and `ascii`, and the rest of the `validate`
      package), left uninterpreted. */
  datatype TagLibrary = TagLibrary(
    base64: string -> bool,
    imagename: string -> bool,
    semvertolerant: string -> bool,
    architecture: string -> bool,
    target: string -> bool,
    ascii: string -> bool)

  /** Everything validation consults besides the options themselves. */
  datatype Checks = Checks(tags: TagLibrary, stat: string -> StatResult, kernel: Support)

  /** `required` on a string: not the zero value. */
  predicate HasValue(s: string)
  {
    s != ""
  }

  /** `required_without=Other`: when the other field is empty this one must not be. */
  predicate RequiredWithoutHolds(value: string, other: string)
  {
    other == "" ==> value != ""
  }

  /** `endswith=suffix`. */
  predicate EndsWithHolds(s: string, suffix: string)
  {
    |suffix| <= |s| && s[|s| - |suffix|..] == suffix
  }

  /** `max=n` on a string: at most n characters. */
  predicate MaxHolds(s: string, n: nat)
  {
    |s| <= n
  }

  /** `excludes=c`: the character does not occur. */
  predicate ExcludesHolds(s: string, c: char)
  {
    c !in s
  }

  /** One element of a tag list, in the order written: a rule with its
      outcome on the field's value, or `omitempty`. */
  datatype TagStep = Check(tag: Tag, holds: bool) | OmitEmpty

  /** How the validator walks a field's tag list: the first failing rule is
      the field's only error; `omitempty` ends the walk successfully when the
      value is empty, and is skipped otherwise. */
  function FirstFailure(value: string, steps: seq<TagStep>): Option<Tag>
  {
    if steps == [] then None
    else
      match steps[0]
      case OmitEmpty => if value == "" then None else FirstFailure(value, steps[1..])
      case Check(tag, holds) => if holds then FirstFailure(value, steps[1..]) else Some(tag)
  }

  /** A reported tag is a failing rule of the list, and the first one: every
      rule before it holds, and no `omitempty` before it met an empty value.
      On a non-empty value no rule fails unreported; without `omitempty` the
      walk succeeds exactly when every rule holds. */
  lemma {:induction false} FirstFailureSpec(value: string, steps: seq<TagStep>)
    ensures var r := FirstFailure(value, steps);
      && (r.Some? ==> exists k :: 0 <= k < |steps| && steps[k] == Check(r.value, false))
      && (r.Some? ==>
            exists k :: 0 <= k < |steps| && (steps[k] == Check(r.value, false) &&
              forall j :: 0 <= j < k ==>
                (steps[j].Check? ==> steps[j].holds) && (steps[j] == OmitEmpty ==> value != "")))
      && (r.None? && value != "" ==> forall k :: 0 <= k < |steps| && steps[k].Check? ==> steps[k].holds)
      && ((forall k :: 0 <= k < |steps| ==> steps[k] != OmitEmpty) ==>
            (r.None? <==> forall k :: 0 <= k < |steps| ==> steps[k].holds))
  {
    if steps != [] {
      FirstFailureSpec(value, steps[1..]);
      assert forall k :: 1 <= k < |steps| ==> steps[k] == steps[1..][k - 1];
      var r := FirstFailure(value, steps);
      if r.Some? && steps[0] != Check(r.value, false) {
        var k :| 0 <= k < |steps[1..]| &&
          (steps[1..][k] == Check(r.value, false) &&
           forall j :: 0 <= j < k ==>
             (steps[1..][j].Check? ==> steps[1..][j].holds) && (steps[1..][j] == OmitEmpty ==> value != ""));
        assert steps[k + 1] == Check(r.value, false);
        assert forall j :: 0 <= j < k + 1 ==>
          (steps[j].Check? ==> steps[j].holds) && (steps[j] == OmitEmpty ==> value != "");
      }
    }
  }

  // The shapes of tag list the option fields use.

  lemma FirstFailureOneCheck(v: string, t: Tag, h: bool)
    ensures FirstFailure(v, [Check(t, h)]) == if h then None else Some(t)
  {
    assert [Check(t, h)][1..] == [];
  }

  lemma FirstFailureOmitOnly(v: string)
    ensures FirstFailure(v, [OmitEmpty]) == None
  {
    assert [OmitEmpty][1..] == [];
  }

  lemma FirstFailureTwoChecks(v: string, t1: Tag, h1: bool, t2: Tag, h2: bool)
    ensures FirstFailure(v, [Check(t1, h1), Check(t2, h2)])
      == if !h1 then Some(t1) else if !h2 then Some(t2) else None
  {
    assert [Check(t1, h1), Check(t2, h2)][1..] == [Check(t2, h2)];
    FirstFailureOneCheck(v, t2, h2);
  }

  lemma FirstFailureOmitThenCheck(v: string, t: Tag, h: bool)
    ensures FirstFailure(v, [OmitEmpty, Check(t, h)]) == if v == "" || h then None else Some(t)
  {
    assert [OmitEmpty, Check(t, h)][1..] == [Check(t, h)];
    FirstFailureOneCheck(v, t, h);
  }

  lemma FirstFailureOutputShape(v: string, t1: Tag, h1: bool, t2: Tag, h2: bool, t3: Tag, h3: bool)
    ensures FirstFailure(v, [Check(t1, h1), Check(t2, h2), OmitEmpty, Check(t3, h3)])
      == if !h1 then Some(t1) else if !h2 then Some(t2) else if v == "" || h3 then None else Some(t3)
  {
    var steps := [Check(t1, h1), Check(t2, h2), OmitEmpty, Check(t3, h3)];
    assert steps[1..] == [Check(t2, h2), OmitEmpty, Check(t3, h3)];
    assert steps[1..][1..] == [OmitEmpty, Check(t3, h3)];
    FirstFailureOmitThenCheck(v, t3, h3);
  }

  /** The error list one field contributes: empty, or its first failure. */
  function FieldCheck(field: string, value: string, steps: seq<TagStep>): (errs: seq<OptionError>)
    ensures |errs| <= 1
    ensures errs == [] <==> FirstFailure(value, steps).None?
    ensures errs != [] ==> errs[0] == FieldError(field, FirstFailure(value, steps).value)
  {
    match FirstFailure(value, steps)
    case None => []
    case Some(tag) => [FieldError(field, tag)]
  }

  // The tag list of each field, in declaration order.

  function ArchitectureSteps(o: RootOptions, c: Checks): seq<TagStep>
  {
    [Check(Required, HasValue(o.architecture)), Check(ArchitectureTag, c.tags.architecture(o.architecture))]
  }

  function ModuleFilePathSteps(o: RootOptions, c: Checks): seq<TagStep>
  {
    [Check(IsExistFilePathTag, Validate.IsExistFilePath(Validate.StringField(o.moduleFilePath), c.stat))]
  }

  function KernelVersionSteps(o: RootOptions): seq<TagStep>
  {
    [OmitEmpty]
  }

  function ModuleDriverNameSteps(o: RootOptions): seq<TagStep>
  {
    [Check(Max, MaxHolds(o.moduleDriverName, MaxDriverNameLength))]
  }

  function ModuleDeviceNameSteps(o: RootOptions): seq<TagStep>
  {
    [Check(Excludes, ExcludesHolds(o.moduleDeviceName, '/')),
     Check(Max, MaxHolds(o.moduleDeviceName, MaxDeviceNameLength))]
  }

  function KernelReleaseSteps(o: RootOptions, c: Checks): seq<TagStep>
  {
    [Check(Required, HasValue(o.kernelRelease)), Check(AsciiTag, c.tags.ascii(o.kernelRelease))]
  }

  function TargetSteps(o: RootOptions, c: Checks): seq<TagStep>
  {
    [Check(Required, HasValue(o.target)), Check(TargetTag, c.tags.target(o.target))]
  }

  function KernelConfigDataSteps(o: RootOptions, c: Checks): seq<TagStep>
  {
    [OmitEmpty, Check(Base64Tag, c.tags.base64(o.kernelConfigData))]
  }

  function BuilderImageSteps(o: RootOptions, c: Checks): seq<TagStep>
  {
    [OmitEmpty, Check(ImageNameTag, c.tags.imagename(o.builderImage))]
  }

  function GccVersionSteps(o: RootOptions, c: Checks): seq<TagStep>
  {
    [OmitEmpty, Check(SemverTolerantTag, c.tags.semvertolerant(o.gccVersion))]
  }

  function OutputModuleSteps(o: RootOptions, c: Checks): seq<TagStep>
  {
    [Check(RequiredWithout, RequiredWithoutHolds(o.output.modulePath, o.output.probePath)),
     Check(FilePathTag, Validate.IsFilePath(Validate.StringField(o.output.modulePath), c.stat)),
     OmitEmpty,
     Check(EndsWith, EndsWithHolds(o.output.modulePath, ".ko"))]
  }

  function OutputProbeSteps(o: RootOptions, c: Checks): seq<TagStep>
  {
    [Check(RequiredWithout, RequiredWithoutHolds(o.output.probePath, o.output.modulePath)),
     Check(FilePathTag, Validate.IsFilePath(Validate.StringField(o.output.probePath), c.stat)),
     OmitEmpty,
     Check(EndsWith, EndsWithHolds(o.output.probePath, ".o"))]
  }

  function LocalKernelDirSteps(o: RootOptions, c: Checks): seq<TagStep>
  {
    [OmitEmpty, Check(IsExistDirPathTag, Validate.IsExistDirPath(Validate.StringField(o.localKernelDir), c.stat))]
  }

  /** One field as the validator walks it: its name, its value and its tag list. */
  datatype FieldSpec = FieldSpec(name: string, value: string, steps: seq<TagStep>)

  /** The tagged fields in declaration order, nested structs in place
      (`BuilderRepos` carries only `omitempty`, `KernelUrls` and `Repo` no tag). */
  function FieldTable(o: RootOptions, c: Checks): seq<FieldSpec>
  {
    [ FieldSpec("Architecture", o.architecture, ArchitectureSteps(o, c)),
      FieldSpec("ModuleFilePath", o.moduleFilePath, ModuleFilePathSteps(o, c)),
      FieldSpec("KernelVersion", o.kernelVersion, KernelVersionSteps(o)),
      FieldSpec("ModuleDriverName", o.moduleDriverName, ModuleDriverNameSteps(o)),
      FieldSpec("ModuleDeviceName", o.moduleDeviceName, ModuleDeviceNameSteps(o)),
      FieldSpec("KernelRelease", o.kernelRelease, KernelReleaseSteps(o, c)),
      FieldSpec("Target", o.target, TargetSteps(o, c)),
      FieldSpec("KernelConfigData", o.kernelConfigData, KernelConfigDataSteps(o, c)),
      FieldSpec("BuilderImage", o.builderImage, BuilderImageSteps(o, c)),
      FieldSpec("GCCVersion", o.gccVersion, GccVersionSteps(o, c)),
      FieldSpec("Output.Module", o.output.modulePath, OutputModuleSteps(o, c)),
      FieldSpec("Output.Probe", o.output.probePath, OutputProbeSteps(o, c)),
      FieldSpec("LocalKernelDir", o.localKernelDir, LocalKernelDirSteps(o, c)) ]
  }

  /** The errors of a list of fields, each field's after those of the fields before it. */
  function CollectErrors(fields: seq<FieldSpec>): seq<OptionError>
  {
    if fields == [] then []
    else FieldCheck(fields[0].name, fields[0].value, fields[0].steps) + CollectErrors(fields[1..])
  }

  /** A list of fields reports nothing exactly when each of its fields walks
      its tags without failure. */
  lemma {:induction false} CollectErrorsEmptyIff(fields: seq<FieldSpec>)
    ensures CollectErrors(fields) == [] <==>
      forall f :: f in fields ==> FirstFailure(f.value, f.steps).None?
  {
    if fields != [] {
      CollectErrorsEmptyIff(fields[1..]);
      assert forall f :: f in fields <==> f == fields[0] || f in fields[1..];
    }
  }

  /** Each tagged field walks its tags without failure. */
  predicate EveryFieldPasses(o: RootOptions, c: Checks)
  {
    && FirstFailure(o.architecture, ArchitectureSteps(o, c)).None?
    && FirstFailure(o.moduleFilePath, ModuleFilePathSteps(o, c)).None?
    && FirstFailure(o.kernelVersion, KernelVersionSteps(o)).None?
    && FirstFailure(o.moduleDriverName, ModuleDriverNameSteps(o)).None?
    && FirstFailure(o.moduleDeviceName, ModuleDeviceNameSteps(o)).None?
    && FirstFailure(o.kernelRelease, KernelReleaseSteps(o, c)).None?
    && FirstFailure(o.target, TargetSteps(o, c)).None?
    && FirstFailure(o.kernelConfigData, KernelConfigDataSteps(o, c)).None?
    && FirstFailure(o.builderImage, BuilderImageSteps(o, c)).None?
    && FirstFailure(o.gccVersion, GccVersionSteps(o, c)).None?
    && FirstFailure(o.output.modulePath, OutputModuleSteps(o, c)).None?
    && FirstFailure(o.output.probePath, OutputProbeSteps(o, c)).None?
    && FirstFailure(o.localKernelDir, LocalKernelDirSteps(o, c)).None?
  }

  /** The table lists exactly the fields of `EveryFieldPasses`. */
  lemma FieldTablePasses(o: RootOptions, c: Checks)
    ensures (forall f :: f in FieldTable(o, c) ==> FirstFailure(f.value, f.steps).None?)
      <==> EveryFieldPasses(o, c)
  {
    if forall f :: f in FieldTable(o, c) ==> FirstFailure(f.value, f.steps).None? {
      FieldTableCovers(o, c);
    }
    if EveryFieldPasses(o, c) {
      FieldTableOnlyFields(o, c);
    }
  }

  lemma FieldTableCovers(o: RootOptions, c: Checks)
    requires forall f :: f in FieldTable(o, c) ==> FirstFailure(f.value, f.steps).None?
    ensures EveryFieldPasses(o, c)
  {
    var t := FieldTable(o, c);
    assert t[0] in t && t[1] in t && t[2] in t && t[3] in t && t[4] in t && t[5] in t && t[6] in t;
    assert t[7] in t && t[8] in t && t[9] in t && t[10] in t && t[11] in t && t[12] in t;
  }

  lemma FieldTableOnlyFields(o: RootOptions, c: Checks)
    requires EveryFieldPasses(o, c)
    ensures forall f :: f in FieldTable(o, c) ==> FirstFailure(f.value, f.steps).None?
  {
    var t := FieldTable(o, c);
    forall f | f in t ensures FirstFailure(f.value, f.steps).None? {
      var i :| 0 <= i < |t| && t[i] == f;
    }
  }

  /** The field-level errors, one at most per field, in declaration order. */
  function FieldErrors(o: RootOptions, c: Checks): seq<OptionError>
  {
    CollectErrors(FieldTable(o, c))
  }

  // The field rules stated directly, one predicate per field.

  predicate ArchitectureValid(o: RootOptions, c: Checks)
  {
    o.architecture != "" && c.tags.architecture(o.architecture)
  }

  predicate ModuleFilePathValid(o: RootOptions, c: Checks)
  {
    c.stat(o.moduleFilePath) == StatError
    || (c.stat(o.moduleFilePath).Exists? && !c.stat(o.moduleFilePath).isDir)
  }

  predicate DriverNameValid(o: RootOptions)
  {
    |o.moduleDriverName| <= MaxDriverNameLength
  }

  predicate DeviceNameValid(o: RootOptions)
  {
    '/' !in o.moduleDeviceName && |o.moduleDeviceName| <= MaxDeviceNameLength
  }

  predicate KernelReleaseValid(o: RootOptions, c: Checks)
  {
    o.kernelRelease != "" && c.tags.ascii(o.kernelRelease)
  }

  predicate TargetValid(o: RootOptions, c: Checks)
  {
    o.target != "" && c.tags.target(o.target)
  }

  /** An optional field: empty, or accepted by its rule. */
  predicate OptionalValid(s: string, rule: string -> bool)
  {
    s == "" || rule(s)
  }

  /** The entry may be created or overwritten as a file: it is missing, or
      it exists and is not a directory. */
  predicate MayBeFile(stat: string -> StatResult, path: string)
  {
    stat(path) == NotExist || stat(path) == Exists(false)
  }

  /** At least one output is requested; each may be a file (empty included,
      since `filepath` comes before `omitempty`) and, when given, carries the
      driver's suffix. */
  predicate OutputValid(o: RootOptions, c: Checks)
  {
    var m := o.output.modulePath;
    var p := o.output.probePath;
    && (m != "" || p != "")
    && MayBeFile(c.stat, m) && MayBeFile(c.stat, p)
    && (m != "" ==> EndsWithHolds(m, ".ko"))
    && (p != "" ==> EndsWithHolds(p, ".o"))
  }

  predicate LocalKernelDirValid(o: RootOptions, c: Checks)
  {
    o.localKernelDir == "" || c.stat(o.localKernelDir) == StatError
    || (c.stat(o.localKernelDir).Exists? && c.stat(o.localKernelDir).isDir)
  }

  predicate FieldRulesHold(o: RootOptions, c: Checks)
  {
    && ArchitectureValid(o, c)
    && ModuleFilePathValid(o, c)
    && DriverNameValid(o)
    && DeviceNameValid(o)
    && KernelReleaseValid(o, c)
    && TargetValid(o, c)
    && OptionalValid(o.kernelConfigData, c.tags.base64)
    && OptionalValid(o.builderImage, c.tags.imagename)
    && OptionalValid(o.gccVersion, c.tags.semvertolerant)
    && OutputValid(o, c)
    && LocalKernelDirValid(o, c)
  }

  /** The two output fields pass their tags exactly when the output rule holds. */
  lemma OutputErrorsEmptyIff(o: RootOptions, c: Checks)
    ensures FirstFailure(o.output.modulePath, OutputModuleSteps(o, c)).None?
         && FirstFailure(o.output.probePath, OutputProbeSteps(o, c)).None?
      <==> OutputValid(o, c)
  {
    var m := o.output.modulePath;
    var p := o.output.probePath;
    FirstFailureOutputShape(m, RequiredWithout, RequiredWithoutHolds(m, p),
                            FilePathTag, Validate.IsFilePath(Validate.StringField(m), c.stat),
                            EndsWith, EndsWithHolds(m, ".ko"));
    FirstFailureOutputShape(p, RequiredWithout, RequiredWithoutHolds(p, m),
                            FilePathTag, Validate.IsFilePath(Validate.StringField(p), c.stat),
                            EndsWith, EndsWithHolds(p, ".o"));
  }

  /** Each field's tag walk passes exactly when its rule holds. */
  lemma EveryFieldPassesIff(o: RootOptions, c: Checks)
    ensures EveryFieldPasses(o, c) <==> FieldRulesHold(o, c)
  {
    FirstFailureTwoChecks(o.architecture, Required, HasValue(o.architecture),
                          ArchitectureTag, c.tags.architecture(o.architecture));
    FirstFailureOneCheck(o.moduleFilePath, IsExistFilePathTag,
                         Validate.IsExistFilePath(Validate.StringField(o.moduleFilePath), c.stat));
    FirstFailureOmitOnly(o.kernelVersion);
    FirstFailureOneCheck(o.moduleDriverName, Max, MaxHolds(o.moduleDriverName, MaxDriverNameLength));
    FirstFailureTwoChecks(o.moduleDeviceName, Excludes, ExcludesHolds(o.moduleDeviceName, '/'),
                          Max, MaxHolds(o.moduleDeviceName, MaxDeviceNameLength));
    FirstFailureTwoChecks(o.kernelRelease, Required, HasValue(o.kernelRelease),
                          AsciiTag, c.tags.ascii(o.kernelRelease));
    FirstFailureTwoChecks(o.target, Required, HasValue(o.target), TargetTag, c.tags.target(o.target));
    FirstFailureOmitThenCheck(o.kernelConfigData, Base64Tag, c.tags.base64(o.kernelConfigData));
    FirstFailureOmitThenCheck(o.builderImage, ImageNameTag, c.tags.imagename(o.builderImage));
    FirstFailureOmitThenCheck(o.gccVersion, SemverTolerantTag, c.tags.semvertolerant(o.gccVersion));
    OutputErrorsEmptyIff(o, c);
    FirstFailureOmitThenCheck(o.localKernelDir, IsExistDirPathTag,
                              Validate.IsExistDirPath(Validate.StringField(o.localKernelDir), c.stat));
  }

  /** The tag lists reject exactly the options the field rules reject. */
  lemma FieldErrorsEmptyIff(o: RootOptions, c: Checks)
    ensures FieldErrors(o, c) == [] <==> FieldRulesHold(o, c)
  {
    CollectErrorsEmptyIff(FieldTable(o, c));
    FieldTablePasses(o, c);
    EveryFieldPassesIff(o, c);
  }

  // ---------------------------------------------------------------------------
  // Struct-level rules

  /** Targets built from the user's kernel configuration. */
  predicate NeedsKernelConfigData(target: string)
  {
    target == TargetVanilla || target == TargetMinikube || target == TargetFlatcar
  }

  const KernelConfigDataError := FieldError("KernelConfigData", RequiredKernelConfigDataWithTargetVanilla)
  const KernelVersionError := FieldError("KernelVersion", RequiredKernelVersionWithTargetUbuntu)
  const BuilderImageError := FieldError("builderimage", RequiredBuilderImageWithTargetRedhat)

  /** `RootOptionsLevelValidation`: three cross-field rules, reported in this
      order. Each needs a different target, so at most one of them fires. */
  function StructLevelErrors(o: RootOptions): (errs: seq<OptionError>)
    ensures KernelConfigDataError in errs <==> NeedsKernelConfigData(o.target) && o.kernelConfigData == ""
    ensures KernelVersionError in errs <==> o.target == TargetUbuntu && o.kernelVersion == ""
    ensures BuilderImageError in errs <==> o.target == TargetRedhat && o.builderImage == ""
    ensures forall e :: e in errs ==> e == KernelConfigDataError || e == KernelVersionError || e == BuilderImageError
    ensures errs == [] <==> StructRulesHold(o)
    ensures |errs| <= 1
  {
    (if NeedsKernelConfigData(o.target) && |o.kernelConfigData| == 0 then [KernelConfigDataError] else [])
    + (if o.kernelVersion == "" && o.target == TargetUbuntu then [KernelVersionError] else [])
    + (if o.target == TargetRedhat && o.builderImage == "" then [BuilderImageError] else [])
  }

  // ---------------------------------------------------------------------------
  // Validate

  /** `RootOptions.Validate`: the validator's errors when there are any
      (field errors first, then the struct-level ones); otherwise a single
      error when the release supports neither driver; otherwise none. */
  function ValidateOptions(o: RootOptions, c: Checks): (errs: seq<OptionError>)
    ensures FieldErrors(o, c) + StructLevelErrors(o) != [] ==>
      errs == FieldErrors(o, c) + StructLevelErrors(o)
    ensures FieldErrors(o, c) + StructLevelErrors(o) == [] ==>
      (errs == [] <==> SupportsAny(c.kernel, ParseFor(c.kernel, o.kernelRelease, o.architecture)))
    ensures errs != [] && FieldErrors(o, c) + StructLevelErrors(o) == [] ==> errs == [NeitherSupported]
  {
    var validatorErrors := FieldErrors(o, c) + StructLevelErrors(o);
    if validatorErrors != [] then validatorErrors
    else
      var kr := ParseFor(c.kernel, o.kernelRelease, o.architecture);
      if !c.kernel.supportsModule(kr) && !c.kernel.supportsProbe(kr) then [NeitherSupported] else []
  }

  /** The cross-field rules stated directly. */
  predicate StructRulesHold(o: RootOptions)
  {
    && (NeedsKernelConfigData(o.target) ==> o.kernelConfigData != "")
    && (o.target == TargetUbuntu ==> o.kernelVersion != "")
    && (o.target == TargetRedhat ==> o.builderImage != "")
  }

  /** Options pass validation exactly when every field rule and every
      cross-field rule holds and the release supports at least one driver. */
  lemma ValidateAcceptsExactly(o: RootOptions, c: Checks)
    ensures ValidateOptions(o, c) == [] <==>
      && FieldRulesHold(o, c)
      && StructRulesHold(o)
      && SupportsAny(c.kernel, ParseFor(c.kernel, o.kernelRelease, o.architecture))
  {
    FieldErrorsEmptyIff(o, c);
  }

  // ---------------------------------------------------------------------------
  // toBuild

  /** The `Build` literal of `toBuild` with the default repository appended,
      before unsupported outputs are dropped. */
  function BuildFromOptions(o: RootOptions): (b: Build)
    ensures b.kernelConfigData != ""
  {
    var kernelConfigData := if |o.kernelConfigData| == 0 then NoKernelConfigData else o.kernelConfigData;
    Build(
      targetType := o.target,
      kernelConfigData := kernelConfigData,
      kernelRelease := o.kernelRelease,
      kernelVersion := o.kernelVersion,
      moduleFilePath := o.moduleFilePath,
      architecture := o.architecture,
      moduleOutputFilePath := o.output.modulePath,
      probeFilePath := o.output.probePath,
      moduleDriverName := o.moduleDriverName,
      moduleDeviceName := o.moduleDeviceName,
      builderImage := o.builderImage,
      builderRepos := o.builderRepos + [DefaultBuilderRepo],
      kernelUrls := o.kernelUrls,
      gccVersion := o.gccVersion,
      repoOrg := o.repo.org,
      repoName := o.repo.name,
      localKernelDir := o.localKernelDir)
  }

  /** Every output a build still requests is supported by its kernel release. */
  predicate OutputsSupported(b: Build, k: Support)
  {
    var kr := KernelReleaseFromBuildConfig(b, k);
    && (b.moduleOutputFilePath != "" ==> k.supportsModule(kr))
    && (b.probeFilePath != "" ==> k.supportsProbe(kr))
  }

  /** Drops each requested output the kernel release does not support; the
      two decisions are taken independently. */
  function DropUnsupportedOutputs(b: Build, k: Support): (r: Build)
    ensures r == b.(moduleOutputFilePath := r.moduleOutputFilePath, probeFilePath := r.probeFilePath)
    ensures OutputsSupported(r, k)
    ensures r.moduleOutputFilePath == "" || r.moduleOutputFilePath == b.moduleOutputFilePath
    ensures r.probeFilePath == "" || r.probeFilePath == b.probeFilePath
  {
    var kr := KernelReleaseFromBuildConfig(b, k);
    var withModule := if |b.moduleOutputFilePath| > 0 && !k.supportsModule(kr)
      then b.(moduleOutputFilePath := "") else b;
    var r := if |withModule.probeFilePath| > 0 && !k.supportsProbe(kr)
      then withModule.(probeFilePath := "") else withModule;
    KernelReleaseDependsOnReleaseAndArchitecture(r, b, k);
    r
  }

  /** Dropping unsupported outputs keeps exactly the supported requested
      ones, and a second pass changes nothing. */
  lemma DropUnsupportedOutputsExact(b: Build, k: Support)
    ensures var kr := KernelReleaseFromBuildConfig(b, k);
      var r := DropUnsupportedOutputs(b, k);
      && (r.moduleOutputFilePath == (if k.supportsModule(kr) then b.moduleOutputFilePath else ""))
      && (r.probeFilePath == (if k.supportsProbe(kr) then b.probeFilePath else ""))
    ensures DropUnsupportedOutputs(DropUnsupportedOutputs(b, k), k) == DropUnsupportedOutputs(b, k)
  {
    var r := DropUnsupportedOutputs(b, k);
    KernelReleaseDependsOnReleaseAndArchitecture(r, b, k);
  }

  /** `toBuild`. */
  function ToBuild(o: RootOptions, k: Support): (b: Build)
    ensures o.kernelConfigData == "" ==> b.kernelConfigData == NoKernelConfigData
    ensures o.kernelConfigData != "" ==> b.kernelConfigData == o.kernelConfigData
    ensures |b.builderRepos| == |o.builderRepos| + 1
    ensures b.builderRepos[..|o.builderRepos|] == o.builderRepos
    ensures b.builderRepos[|o.builderRepos|] == DefaultBuilderRepo
    ensures var kr := ParseFor(k, o.kernelRelease, o.architecture);
      && (b.moduleOutputFilePath == (if o.output.modulePath != "" && !k.supportsModule(kr) then "" else o.output.modulePath))
      && (b.probeFilePath == (if o.output.probePath != "" && !k.supportsProbe(kr) then "" else o.output.probePath))
    ensures OutputsSupported(b, k)
    ensures b.targetType == o.target && b.kernelRelease == o.kernelRelease
    ensures b.kernelVersion == o.kernelVersion && b.moduleFilePath == o.moduleFilePath
    ensures b.architecture == o.architecture
    ensures b.moduleDriverName == o.moduleDriverName && b.moduleDeviceName == o.moduleDeviceName
    ensures b.builderImage == o.builderImage && b.kernelUrls == o.kernelUrls && b.gccVersion == o.gccVersion
    ensures b.repoOrg == o.repo.org && b.repoName == o.repo.name && b.localKernelDir == o.localKernelDir
  {
    var b := DropUnsupportedOutputs(BuildFromOptions(o), k);
    DropUnsupportedOutputsExact(BuildFromOptions(o), k);
    b
  }

  /** The default repository is appended even when the user already listed
      it: it then occurs once more than in the user's list, so at least twice. */
  lemma ToBuildDoesNotDeduplicateDefaultRepo(o: RootOptions, k: Support)
    requires DefaultBuilderRepo in o.builderRepos
    ensures multiset(ToBuild(o, k).builderRepos)[DefaultBuilderRepo]
      == multiset(o.builderRepos)[DefaultBuilderRepo] + 1
    ensures multiset(ToBuild(o, k).builderRepos)[DefaultBuilderRepo] >= 2
  {
    var r := ToBuild(o, k).builderRepos;
    assert r == o.builderRepos + [DefaultBuilderRepo];
    assert multiset(r) == multiset(o.builderRepos) + multiset{DefaultBuilderRepo};
  }

  /** Validation and translation agree on the kernel release: validated
      options always reach `toBuild` with a release supporting some driver. */
  lemma ValidatedOptionsHaveSupportedRelease(o: RootOptions, c: Checks)
    requires ValidateOptions(o, c) == []
    ensures SupportsAny(c.kernel, KernelReleaseFromBuildConfig(ToBuild(o, c.kernel), c.kernel))
  {
  }

  /** Validation checks that the release supports some driver, not that it
      supports a requested one: options asking only for a module on a release
      that supports only probes pass, and the resulting build requests
      nothing. */
  lemma ValidatedOptionsMayRequestNothing(o: RootOptions, c: Checks)
    requires ValidateOptions(o, c) == []
    requires o.output.probePath == ""
    requires !c.kernel.supportsModule(ParseFor(c.kernel, o.kernelRelease, o.architecture))
    ensures ToBuild(o, c.kernel).moduleOutputFilePath == "" && ToBuild(o, c.kernel).probeFilePath == ""
    ensures o.output.modulePath != ""
  {
    FieldErrorsEmptyIff(o, c);
  }

  /** Options that request nothing once built exist as soon as one set of
      options meets the premises of `ValidatedOptionsMayRequestNothing`. */
  lemma RequestNothingFrom(o: RootOptions, c: Checks)
    requires FieldRulesHold(o, c) && StructRulesHold(o)
    requires o.output.probePath == ""
    requires !c.kernel.supportsModule(ParseFor(c.kernel, o.kernelRelease, o.architecture))
    requires c.kernel.supportsProbe(ParseFor(c.kernel, o.kernelRelease, o.architecture))
    ensures exists o': RootOptions, c': Checks ::
      && ValidateOptions(o', c') == []
      && o'.output.modulePath != ""
      && ToBuild(o', c'.kernel).moduleOutputFilePath == ""
      && ToBuild(o', c'.kernel).probeFilePath == ""
  {
    ValidateAcceptsExactly(o, c);
    ValidatedOptionsMayRequestNothing(o, c);
  }

  /** Such options exist: a module-only request on a release that supports
      the probe but not the module passes validation, and its build requests
      neither driver. */
  lemma RequestNothingReachable()
    ensures exists o: RootOptions, c: Checks ::
      && ValidateOptions(o, c) == []
      && o.output.modulePath != ""
      && ToBuild(o, c.kernel).moduleOutputFilePath == ""
      && ToBuild(o, c.kernel).probeFilePath == ""
  {
    var accept := (s: string) => true;
    var tags := TagLibrary(accept, accept, accept, accept, accept, accept);
    var stat := (path: string) => if path == "driver.tar.gz" then Exists(false) else NotExist;
    var kernel := Support(release => KernelRelease(5, 10, 0, "", ""), kr => false, kr => true);
    var c := Checks(tags, stat, kernel);
    var o := NewRootOptions().(architecture := "amd64", moduleFilePath := "driver.tar.gz",
                               kernelRelease := "5.10.0", target := "debian",
                               output := OutputOptions("falco.ko", ""));
    assert stat("driver.tar.gz") == Exists(false);
    assert stat("falco.ko") == NotExist && stat("") == NotExist;
    assert EndsWithHolds(o.output.modulePath, ".ko");
    RequestNothingFrom(o, c);
  }
}

=== FILE: strings.dfy ===
/** Character search on strings, shared by the URL and comma splitters. */
module Strings {

  /** Index of the first `c` in `s`, or `|s|` when there is none. */
  function IndexOf(s: string, c: char): (i: nat)
    ensures i <= |s|
    ensures i < |s| ==> s[i] == c
    ensures forall j :: 0 <= j < i ==> s[j] != c
  {
    if s == [] then 0
    else if s[0] == c then 0
    else 1 + IndexOf(s[1..], c)
  }
}

=== FILE: wrappers.dfy ===
/** Failure-carrying values shared by every module of the model. */
module Wrappers {

  /** A value that may be absent (a Go map lookup's `ok`, an optional parse). */
  datatype Option<+T> = None | Some(value: T)

  /** A value or the error that replaced it (a Go `(T, error)` pair). */
  datatype Result<+T, +E> = Ok(value: T) | Err(error: E)
}
